=== FILE: README.md ===
# AFL player-statistics dashboard: the aggregation engine

A Dafny model of the statistics engine inside the AFL player dashboard
(`app.py`). The dashboard loads a sheet of per-game player rows, keeps the rows
of the chosen players, and shows:

- a breakdown table: season mean and last-3/5/10-game means of disposals,
  fantasy points and goals;
- split tables: the mean of those statistics per home/away, per win/lose and
  per venue category, read back with a default of 0 for a category that does
  not occur;
- a "player line" table: over the last 3, 5 and 10 games and over all games,
  how many games a chosen statistic finished strictly over and strictly under a
  threshold, and what percentage of the games with a value that is;
- the Round column normalised to text (`3.0` becomes `"3"`).

Modelling choices:

- A statistic cell is `Option<int>`; `None` is a blank cell, which pandas reads
  as NaN and which `count()`, `sum` and `mean()` skip and which is neither over
  nor under any line.
- A categorical cell is `Option<string>`; pandas `groupby` drops rows whose
  category is NaN, while `unique()` (used to list venues) keeps it.
- Means and percentages are exact `real` quotients. Where pandas or numpy would
  produce NaN (a mean of no value, a percentage of a window with no value,
  `0/0` on numpy integers), the model returns `None`.
- The line is a `real`; the Round input is `Finite(real) | NaN | PosInf | NegInf`,
  `int()` is truncation toward zero, `str()` of an integer is its decimal text.
- The modules follow the engine's parts: `Dataset` (rows and columns),
  `Selection`, `Windows` (reverse/head/tail), `Aggregates` (count/sum/mean),
  `Summary` (breakdown table), `Splits` (grouped means and their tables),
  `Line` (threshold counter), `Rounds`, and `Engine` (one recomputation).

Behaviours worth knowing before reading the contracts:

- A line window with no value has NaN percentages (here `None`): `count()` is
  0 there and numpy's `0/0` on integers is NaN.
- The "Loss" line of the split table looks up the category `"Lose"`.
- A Round value is normalised once, when the sheet is loaded. Idempotence is
  stated by reading the normalised text back as Python's `float()` would and
  normalising again.

## Model

| member | source | states |
|---|---|---|
| Selection.Select | app.py:26-28 | the selection is no longer than the sheet and holds only rows of chosen players |
| Selection.SelectContents | app.py:26-28 | the selection holds each row of a chosen player as often as the sheet does, and no other row |
| Selection.SelectMembership | app.py:26-28 | a row is selected if and only if it is in the sheet and its player is chosen |
| Selection.SelectAppend | app.py:26-28 | selection distributes over concatenation, so selected rows keep their sheet order |
| Selection.SelectNothing | app.py:26-28 | choosing no player selects no row |
| Selection.SelectEveryone | app.py:26-28 | choosing every player of the sheet keeps the sheet unchanged |
| Selection.SelectTwice | app.py:26-28 | selecting with one choice and then another is selecting once with their intersection |
| Rounds.Truncate | app.py:19 | `int()` of a float is the integer next to it toward zero |
| Rounds.NatToDigits | app.py:19 | decimal text of a natural: digits only, no leading zero, "0" only for zero |
| Rounds.DigitsRoundTrip | app.py:19 | reading back the decimal text of a natural gives the natural |
| Rounds.IntToString | app.py:19 | `str()` of an integer is non-empty, starts with '-' exactly for a negative integer, and is digits otherwise |
| Rounds.IntRoundTrip | app.py:19 | reading back `str()` of any integer, negative ones included, gives the integer |
| Rounds.NormalizeRound | app.py:19 | a finite round becomes text without a decimal point that reads back as its truncation; NaN and infinities become text that is not an integer |
| Rounds.NormalizeIdempotent | app.py:19 | the normalised text can be read back as a float and normalising that again gives the same text |
| Rounds.NormalizeColumn | app.py:19 | the column is normalised cell by cell, keeping its length |
| Rounds.NormalizeExample | app.py:19 | rounds 3.0, 4.0 and NaN become "3", "4" and "nan" |
| Windows.Reverse | app.py:132 | the reversed selection has the same rows, the last game first |
| Windows.Head | app.py:136 | `head(n)` is a prefix of at most n rows, exactly n when there are enough |
| Windows.Tail | app.py:43-53 | `tail(n)` is the last min(n, length) rows in order |
| Windows.HeadOfReverse | app.py:132-136 | the first n rows of the reversed selection are its last n games, newest first |
| Windows.HeadNested | app.py:145-148 | windows of growing span are nested prefixes |
| Aggregates.CountWhere | app.py:137-139 | a count of present values never exceeds the window |
| Aggregates.Present | app.py:139 | `count()` never exceeds the number of cells |
| Aggregates.PresentZero | app.py:139-141 | `count()` is 0 exactly when every cell is NaN |
| Aggregates.Sum | app.py:38-53 | a column with no present value sums to 0 |
| Aggregates.CountZero | app.py:137-139 | a count is zero exactly when no present value of the window qualifies |
| Aggregates.Mean | app.py:38-40 | the mean is missing exactly when every value is missing, and otherwise times the count of present values is their sum |
| Aggregates.CountReverse | app.py:132-139 | counting does not depend on the order of the window |
| Aggregates.CountPrefix | app.py:145-148 | a count over a prefix is at most the count over the whole |
| Aggregates.MeanBounds | app.py:38-53 | a mean lies between the smallest and largest present value |
| Aggregates.MeanSkipsMissing | app.py:38-53 | dropping missing values changes neither the count, the sum nor the mean |
| Aggregates.MeanTimesCountIsSum | app.py:65-75 | a mean weighted by its count is the sum of its values, 0 when it has none |
| Summary.SeasonMean | app.py:38-40 | the season mean is missing exactly when no selected game has the statistic |
| Summary.TailMean | app.py:43-53 | a last-n mean is missing exactly when none of the last min(n, length) games has the statistic |
| Summary.TailMeanWholeSeason | app.py:38-53 | a last-n mean with n at least the number of games is the season mean |
| Summary.TailMeanBounds | app.py:43-53 | a last-n mean lies between the smallest and largest value of the statistic |
| Summary.TailMeanSkipsMissing | app.py:43-53 | a last-n mean averages only the games of the window that have a value |
| Summary.Breakdown | app.py:38-53 | a breakdown line belongs to its statistic and its season mean is missing exactly when no selected game has that statistic |
| Summary.BreakdownTable | app.py:56-61 | three lines, for disposals, fantasy and goals in that order |
| Summary.ShortSelectionCollapses | app.py:38-53 | with at most three games every last-n mean equals the season mean |
| Summary.EmptySelectionBreakdown | app.py:38-61 | an empty selection has no mean in any cell of the breakdown table |
| Line.LinePartition | app.py:137-139 | each present value is over, under or on the line, and exactly one of them |
| Line.Window | app.py:136 | the window is the statistic of the first min(span, length) rows, in order |
| Line.Share | app.py:140-141 | a share times the total is 100 times the count; it is non-negative and at most 100 when the count is at most the total |
| Line.ShareSum | app.py:140-141 | shares of the same total add as their counts do |
| Line.LineCounts | app.py:137-141 | over plus under never exceed the present values; the shares are missing exactly when there is none, otherwise are the shares of the counts and add up to at most 100 |
| Line.CalculatePercentageAndCount | app.py:135-142 | over plus under never exceed the present values, which never exceed the span; the shares are missing exactly when no game of the window has a value |
| Line.PercentagesComplement | app.py:137-141 | shares over, under and on the line add up to 100 |
| Line.CountsGrowWithSpan | app.py:136-139 | a longer span never counts fewer games over or under the line |
| Line.LineTableNested | app.py:145-148 | counts over and under: last 3 <= last 5 <= last 10 <= overall |
| Line.WindowIsLastGames | app.py:132-136 | the window of span n is the last n games of the selection, newest first |
| Line.LastGamesCounts | app.py:132-139 | the counts of span n are those of the last n games in sheet order |
| Line.BuildLineTable | app.py:132-148 | the overall line counts over and under the line across every selected game, and the last-3/5/10 lines across the last 3, 5 and 10 games in sheet order |
| Line.EmptySelectionLines | app.py:145-148 | an empty selection counts nothing and has no share on every line |
| Line.ThreeGameExample | app.py:132-148 | disposals 20, 25, 30 with line 22: two over (200/3 %), one under (100/3 %) |
| Splits.Group | app.py:65-75 | a group holds only rows of its category and no more rows than the selection |
| Splits.GroupMembers | app.py:65-75 | a row is in the group of k exactly when it is selected and its category is k |
| Splits.GroupedMean | app.py:65-75 | the grouped mean has one key per category occurring in the rows |
| Splits.GroupedMeanKeys | app.py:65-75 | k is a key of the grouped mean if and only if some row has category k |
| Splits.GroupedMeanEntry | app.py:65-75 | each entry is the NaN-skipping mean of the statistic over the whole selection with the rows of other categories blanked out |
| Splits.GroupedMeanMissing | app.py:65-75 | an entry is missing exactly when no row of its category has the statistic |
| Splits.Lookup | app.py:81-107 | `.get(k, 0)` returns the entry of a key in the index, and anything other than 0 only for such a key; a NaN key is never in the index |
| Splits.LookupMeaning | app.py:81-98 | `.get(k, 0)` is the category mean when k occurs, else 0 |
| Splits.AcrossPartition | app.py:65-75 | over categories listed once each, group sums (counts) add up to the sum (count) over every row with a category |
| Splits.WeightedMeansAreSums | app.py:65-75 | group means weighted by group counts add up to the group sums |
| Splits.GroupedMeanPartition | app.py:65-75 | counts add up to the overall count, weighted means to the overall sum, and their ratio is the overall mean |
| Splits.Unique | app.py:104 | `unique()` lists each value once and only values that occur |
| Splits.UniqueOfPrefix | app.py:104 | `unique()` keeps first-appearance order: that of a prefix is a prefix |
| Splits.VenueTable | app.py:103-108 | one line per distinct venue cell, none repeated, every venue present, listed in `unique()` order (first appearance, by UniqueOfPrefix) |
| Splits.VenueTableEntries | app.py:103-108 | a listed venue shows its own means; only a blank venue shows the 0 default |
| Splits.CategoryOf | app.py:78-101 | a split line belongs to the category it was asked for |
| Splits.CombinedTable | app.py:78-101 | four lines, Home, Away, Win and Loss, in that order |
| Splits.CategoryLineMeaning | app.py:81-98 | each cell is the mean over the games of the category the line reads (the Loss line reads "Lose"), or 0 when no game has it |
| Splits.EmptySelectionSplits | app.py:78-108 | an empty selection shows 0 in every split cell and no venue |
| Splits.HomeAwayExample | app.py:65-67 | goals 2 and 4 at home and 1 away average 3 at home and 1 away |
| Engine.Recompute | app.py:26-180 | the game log, which repeats the app.py:26-28 query at app.py:180, holds each chosen player's row as often as the sheet does and no other row, and it is the selection `Select`, whose sheet order SelectAppend fixes; the breakdown, split, venue and line tables are computed from exactly the rows the game log shows; the breakdown has 3 lines and the split table 4 |
| Engine.NothingChosen | app.py:26-148 | choosing no player gives placeholders in every table and an empty game log |

## Left out

- Loading the sheet with pandas/openpyxl (app.py:9-16): file I/O through a foreign library; the model starts from the row sequence.
- Streamlit page setup, widgets and layout (app.py:7, 21-24, 32-35, 122-129): user interface; the chosen players, statistic and line are parameters.
- HTML table building and display (app.py:110-119, 151-162, 180-187): presentation only; the game log is the selection itself.
- The bar chart and the line drawn on it (app.py:165-177): plotting.
- `round(..., 1)` and `:.1f` formatting of means and percentages (app.py:38-40, 58-61, 81-107, 154-157): floating-point display; means and percentages are exact reals.
- Float arithmetic in general: sums, means and percentages are exact, so float rounding error is not modelled.
- Rounds.NormalizeRound: takes a tagged float (finite real, NaN, +inf, -inf); a Round cell holding a non-numeric value, on which `np.isinf` would raise, is not modelled.
- Rounds.NormalizeIdempotent: reads the normalised text back with a model of `float()` restricted to the texts normalisation produces.
- Sheet columns the engine does not read: they are only shown in the game log, so rows carry only the columns the engine uses.

=== FILE: aggregates.dfy ===
/**
 pandas reductions over one statistic column: `count()` (non-missing cells),
 `sum` and `mean()`, each skipping NaN. A mean over no present value is NaN in
 pandas and `None` here.
 */
module Aggregates {
  import opened Options
  import opened Windows

  /** The number of present values that satisfy `p`. */
  function CountWhere(vs: seq<Option<int>>, p: int -> bool): (n: nat)
    ensures n <= |vs|
  {
    if |vs| == 0 then 0
    else (if vs[0].Some? && p(vs[0].value) then 1 else 0) + CountWhere(vs[1..], p)
  }

  /** A count is zero exactly when no present value satisfies the predicate. */
  lemma {:induction false} CountZero(vs: seq<Option<int>>, p: int -> bool)
    ensures CountWhere(vs, p) == 0 <==> forall i :: 0 <= i < |vs| && vs[i].Some? ==> !p(vs[i].value)
  {
    if |vs| > 0 {
      CountZero(vs[1..], p);
      assert forall i :: 1 <= i < |vs| ==> vs[i] == vs[1..][i - 1];
    }
  }

  function AnyValue(v: int): bool
  {
    true
  }

  /** `count()`: the number of non-missing values. */
  function Present(vs: seq<Option<int>>): (n: nat)
    ensures n <= |vs|
  {
    CountWhere(vs, AnyValue)
  }

  /** Nothing is counted exactly when every value is missing. */
  lemma PresentZero(vs: seq<Option<int>>)
    ensures Present(vs) == 0 <==> forall i :: 0 <= i < |vs| ==> vs[i].None?
  {
    CountZero(vs, AnyValue);
  }

  /** The sum of the non-missing values; missing ones add nothing. */
  function Sum(vs: seq<Option<int>>): (s: int)
    ensures Present(vs) == 0 ==> s == 0
  {
    if |vs| == 0 then 0
    else (if vs[0].Some? then vs[0].value else 0) + Sum(vs[1..])
  }

  /** `mean()`: sum over count of the non-missing values, `None` when there is none. */
  function Mean(vs: seq<Option<int>>): (m: Option<real>)
    ensures m.None? <==> forall i :: 0 <= i < |vs| ==> vs[i].None?
    ensures m.Some? ==> m.value * Present(vs) as real == Sum(vs) as real
  {
    PresentZero(vs);
    if Present(vs) == 0 then None else Some(Quotient(Sum(vs), Present(vs)))
  }

  /** `s / c` in real arithmetic. */
  function Quotient(s: int, c: int): (q: real)
    requires c > 0
    ensures q * c as real == s as real
  {
    s as real / c as real
  }

  lemma {:induction false} CountAppend(a: seq<Option<int>>, b: seq<Option<int>>, p: int -> bool)
    ensures CountWhere(a + b, p) == CountWhere(a, p) + CountWhere(b, p)
  {
    if |a| == 0 {
      assert a + b == b;
    } else {
      assert (a + b)[1..] == a[1..] + b;
      CountAppend(a[1..], b, p);
    }
  }

  lemma {:induction false} SumAppend(a: seq<Option<int>>, b: seq<Option<int>>)
    ensures Sum(a + b) == Sum(a) + Sum(b)
  {
    if |a| == 0 {
      assert a + b == b;
    } else {
      assert (a + b)[1..] == a[1..] + b;
      SumAppend(a[1..], b);
    }
  }

  /** A count over a prefix never exceeds the count over the whole. */
  lemma CountPrefix(vs: seq<Option<int>>, w: seq<Option<int>>, p: int -> bool)
    requires w <= vs
    ensures CountWhere(w, p) <= CountWhere(vs, p)
  {
    assert vs == w + vs[|w|..];
    CountAppend(w, vs[|w|..], p);
  }

  /** Counting does not depend on the order of the values. */
  lemma {:induction false} CountReverse(vs: seq<Option<int>>, p: int -> bool)
    ensures CountWhere(Reverse(vs), p) == CountWhere(vs, p)
  {
    if |vs| > 0 {
      CountReverse(vs[1..], p);
      CountAppend(Reverse(vs[1..]), [vs[0]], p);
    }
  }

  /** Each present value lies in `[lo, hi]`. */
  ghost predicate Within(vs: seq<Option<int>>, lo: int, hi: int)
  {
    forall i :: 0 <= i < |vs| && vs[i].Some? ==> lo <= vs[i].value <= hi
  }

  lemma {:induction false} SumBounds(vs: seq<Option<int>>, lo: int, hi: int)
    requires Within(vs, lo, hi)
    ensures lo * Present(vs) <= Sum(vs) <= hi * Present(vs)
  {
    if |vs| > 0 {
      var rest := vs[1..];
      assert Within(rest, lo, hi) by {
        forall i | 0 <= i < |rest| && rest[i].Some?
          ensures lo <= rest[i].value <= hi
        {
          assert rest[i] == vs[i + 1];
        }
      }
      SumBounds(rest, lo, hi);
      var c, s := Present(rest), Sum(rest);
      if vs[0].Some? {
        var v := vs[0].value;
        assert lo <= v <= hi;
        assert Present(vs) == c + 1 && Sum(vs) == v + s;
        BoundsStep(lo, hi, v, c, s);
      } else {
        assert Present(vs) == c && Sum(vs) == s;
      }
    }
  }

  /** One more value within the bounds keeps a sum within the bounds of one more count. */
  lemma BoundsStep(lo: int, hi: int, v: int, c: int, s: int)
    requires lo <= v <= hi && lo * c <= s <= hi * c
    ensures lo * (c + 1) <= v + s <= hi * (c + 1)
  {
    assert lo * (c + 1) == lo * c + lo;
    assert hi * (c + 1) == hi * c + hi;
  }

  /** A mean lies between the smallest and the largest value it averages. */
  lemma MeanBounds(vs: seq<Option<int>>, lo: int, hi: int)
    requires Within(vs, lo, hi)
    ensures Mean(vs).Some? ==> lo as real <= Mean(vs).value <= hi as real
  {
    if Present(vs) > 0 {
      SumBounds(vs, lo, hi);
      QuotientBounds(lo, hi, Sum(vs), Present(vs));
    }
  }

  lemma QuotientBounds(lo: int, hi: int, s: int, c: int)
    requires c > 0
    requires lo * c <= s <= hi * c
    ensures lo as real <= s as real / c as real <= hi as real
  {
    var q := s as real / c as real;
    assert q * c as real == s as real;
    assert (lo * c) as real == lo as real * c as real;
    assert (hi * c) as real == hi as real * c as real;
  }

  /** The present values, in order. */
  function Compact(vs: seq<Option<int>>): (r: seq<Option<int>>)
    ensures forall i :: 0 <= i < |r| ==> r[i].Some?
  {
    if |vs| == 0 then []
    else (if vs[0].Some? then [vs[0]] else []) + Compact(vs[1..])
  }

  /** The mean of the values with those missing dropped is the same mean. */
  lemma {:induction false} MeanSkipsMissing(vs: seq<Option<int>>)
    ensures Present(Compact(vs)) == |Compact(vs)| == Present(vs)
    ensures Sum(Compact(vs)) == Sum(vs)
    ensures Mean(Compact(vs)) == Mean(vs)
  {
    if |vs| > 0 {
      MeanSkipsMissing(vs[1..]);
      var h := if vs[0].Some? then [vs[0]] else [];
      CountAppend(h, Compact(vs[1..]), AnyValue);
      SumAppend(h, Compact(vs[1..]));
    }
  }

  /** A mean times the number of values it averages; 0 when there is no value. */
  function MeanTimesCount(vs: seq<Option<int>>): real
  {
    match Mean(vs)
    case None => 0.0
    case Some(m) => m * Present(vs) as real
  }

  lemma {:induction false} NoValueNoSum(vs: seq<Option<int>>)
    requires forall i :: 0 <= i < |vs| ==> vs[i].None?
    ensures Sum(vs) == 0
  {
    if |vs| > 0 {
      NoValueNoSum(vs[1..]);
    }
  }

  /** Weighting a mean by its count gives back the sum. */
  lemma MeanTimesCountIsSum(vs: seq<Option<int>>)
    ensures MeanTimesCount(vs) == Sum(vs) as real
  {
    if Mean(vs).None? {
      NoValueNoSum(vs);
    }
  }
}

=== FILE: dataset.dfy ===
/**
 Rows of the player-statistics sheet: one record per player per game, in the
 order the sheet stores them (oldest game first for each player).
 */
module Dataset {
  import opened Options

  /** The numeric columns a user may pick for the line comparison. */
  datatype StatColumn = Disposals | Marks | Fantasy | Goals | Tackles

  /** The categorical columns the dashboard splits by. */
  datatype GroupColumn = HomeAway | Venue | WinLoseDraw

  /** One player-game. A statistic or a category that is blank in the sheet is `None`. */
  datatype Row = Row(
    player: string,
    round: string,
    disposals: Option<int>,
    marks: Option<int>,
    fantasy: Option<int>,
    goals: Option<int>,
    tackles: Option<int>,
    homeAway: Option<string>,
    venue: Option<string>,
    winLoseDraw: Option<string>)

  function Stat(r: Row, c: StatColumn): Option<int>
  {
    match c
    case Disposals => r.disposals
    case Marks => r.marks
    case Fantasy => r.fantasy
    case Goals => r.goals
    case Tackles => r.tackles
  }

  function Key(r: Row, g: GroupColumn): Option<string>
  {
    match g
    case HomeAway => r.homeAway
    case Venue => r.venue
    case WinLoseDraw => r.winLoseDraw
  }

  /** The column `c` of `rows`, as pandas `df[c]`. */
  function Column(rows: seq<Row>, c: StatColumn): (vs: seq<Option<int>>)
    ensures |vs| == |rows|
    ensures forall i :: 0 <= i < |rows| ==> vs[i] == Stat(rows[i], c)
  {
    seq(|rows|, i requires 0 <= i < |rows| => Stat(rows[i], c))
  }

  /** The categorical column `g` of `rows`. */
  function KeyColumn(rows: seq<Row>, g: GroupColumn): (ks: seq<Option<string>>)
    ensures |ks| == |rows|
    ensures forall i :: 0 <= i < |rows| ==> ks[i] == Key(rows[i], g)
  {
    seq(|rows|, i requires 0 <= i < |rows| => Key(rows[i], g))
  }

  lemma ColumnAppend(a: seq<Row>, b: seq<Row>, c: StatColumn)
    ensures Column(a + b, c) == Column(a, c) + Column(b, c)
  {
  }
}

=== FILE: engine.dfy ===
/**
 One recomputation of the dashboard: the selection of the chosen players feeds
 the breakdown table, the split tables, the line table and the game log.
 */
module Engine {
  import opened Options
  import opened Dataset
  import opened Selection
  import opened Summary
  import opened Splits
  import opened Line

  datatype Dashboard = Dashboard(
    breakdown: seq<StatLine>,
    splits: seq<CategoryLine>,
    venues: seq<VenueLine>,
    lineTable: LineTable,
    gameLog: seq<Row>)

  /**
   The game log holds each chosen player's row as often as the sheet does and
   nothing else, and every table is computed from exactly the rows the game log shows.
   */
  function Recompute(rows: seq<Row>, chosen: set<string>, c: StatColumn, line: real): (d: Dashboard)
    ensures d.gameLog == Select(rows, chosen)
    ensures forall x :: x in d.gameLog <==> x in rows && x.player in chosen
    ensures forall x :: multiset(d.gameLog)[x] == if x.player in chosen then multiset(rows)[x] else 0
    ensures d.breakdown == BreakdownTable(d.gameLog) && d.splits == CombinedTable(d.gameLog)
    ensures d.venues == VenueTable(d.gameLog) && d.lineTable == BuildLineTable(d.gameLog, c, line)
    ensures |d.breakdown| == 3 && |d.splits| == 4
  {
    var sel := Select(rows, chosen);
    forall x ensures x in sel <==> x in rows && x.player in chosen {
      SelectMembership(rows, chosen, x);
    }
    forall x ensures multiset(sel)[x] == if x.player in chosen then multiset(rows)[x] else 0 {
      SelectContents(rows, chosen, x);
    }
    Dashboard(BreakdownTable(sel), CombinedTable(sel), VenueTable(sel), BuildLineTable(sel, c, line), sel)
  }

  /** With no player chosen every table shows placeholders: no mean, 0 splits, no venue, no count. */
  lemma NothingChosen(rows: seq<Row>, c: StatColumn, line: real)
    ensures
      var d := Recompute(rows, {}, c, line);
      var none := LineResult(0, 0, None, None);
      && (forall i :: 0 <= i < 3 ==> d.breakdown[i] == StatLine(BreakdownOrder[i], None, None, None, None))
      && (forall i :: 0 <= i < 4 ==>
            d.splits[i].disposals == d.splits[i].goals == d.splits[i].fantasy == Some(0.0))
      && d.venues == []
      && d.lineTable == LineTable(none, none, none, none)
      && d.gameLog == []
  {
    SelectNothing(rows);
    var d := Recompute(rows, {}, c, line);
    assert d == Dashboard(BreakdownTable([]), CombinedTable([]), VenueTable([]), BuildLineTable([], c, line), []);
    EmptySelectionBreakdown();
    EmptySelectionSplits();
    EmptySelectionLines(c, line);
  }
}

=== FILE: line.dfy ===
/**
 The "player line" table: over the last 3, 5 and 10 games and over the whole
 selection, how many games a chosen statistic finished strictly over and
 strictly under a threshold, and what share of the games with a value that is.
 */
module Line {
  import opened Options
  import opened Dataset
  import opened Windows
  import opened Aggregates

  function Above(line: real): int -> bool
  {
    v => v as real > line
  }

  function Below(line: real): int -> bool
  {
    v => (v as real) < line
  }

  function OnLine(line: real): int -> bool
  {
    v => v as real == line
  }

  /** Every present value is over, under or on the line, and only one of them. */
  lemma {:induction false} LinePartition(vs: seq<Option<int>>, line: real)
    ensures CountWhere(vs, Above(line)) + CountWhere(vs, Below(line)) + CountWhere(vs, OnLine(line))
      == Present(vs)
  {
    if |vs| > 0 {
      LinePartition(vs[1..], line);
    }
  }

  /** The statistic `c` over the first `span` rows of `data`, as `data.head(span)[c]`. */
  function Window(data: seq<Row>, c: StatColumn, span: nat): (w: seq<Option<int>>)
    ensures |w| == Min(span, |data|)
    ensures forall i :: 0 <= i < |w| ==> w[i] == Stat(data[i], c)
  {
    Column(Head(data, span), c)
  }

  /** Counts over and under the line, and their shares of the games that have a value. */
  datatype LineResult = LineResult(above: nat, below: nat, percentAbove: Option<real>, percentBelow: Option<real>)

  /** `(count / total) * 100`: the share of `total` games that `count` is, in percent. */
  function Share(count: nat, total: nat): (p: real)
    requires 0 < total
    ensures p * total as real == 100.0 * count as real
    ensures 0.0 <= p
    ensures count <= total ==> p <= 100.0
  {
    var t := total as real;
    var q := count as real / t;
    assert q * t == count as real;
    assert q * t * 100.0 == 100.0 * count as real;
    q * 100.0
  }

  /** Shares of one total add up as their counts do. */
  lemma ShareSum(a: nat, b: nat, total: nat)
    requires 0 < total
    ensures Share(a, total) + Share(b, total) == Share(a + b, total)
  {
    var t := total as real;
    assert (a + b) as real / t == a as real / t + b as real / t;
  }

  /** The counts and shares of one window of values. */
  function LineCounts(w: seq<Option<int>>, line: real): (r: LineResult)
    ensures r.above + r.below <= Present(w)
    ensures r.percentAbove.None? <==> Present(w) == 0
    ensures r.percentBelow.None? <==> Present(w) == 0
    ensures Present(w) > 0 ==> r.percentAbove == Some(Share(r.above, Present(w)))
    ensures Present(w) > 0 ==> r.percentBelow == Some(Share(r.below, Present(w)))
    ensures r.percentAbove.Some? && r.percentBelow.Some? ==>
      0.0 <= r.percentAbove.value && 0.0 <= r.percentBelow.value
      && r.percentAbove.value + r.percentBelow.value <= 100.0
  {
    var above := CountWhere(w, Above(line));
    var below := CountWhere(w, Below(line));
    var total := Present(w);
    LinePartition(w, line);
    if total == 0 then LineResult(above, below, None, None)
    else
      ShareSum(above, below, total);
      LineResult(above, below, Some(Share(above, total)), Some(Share(below, total)))
  }

  /** `calculate_percentage_and_count`: counts over the first `span` rows of `data`, no more games
      than the span; the shares are NaN, here `None`, exactly when no game of the window has a value. */
  function CalculatePercentageAndCount(data: seq<Row>, c: StatColumn, line: real, span: nat): (r: LineResult)
    ensures r.above + r.below <= Present(Window(data, c, span)) <= Min(span, |data|)
    ensures r.percentAbove.None? <==> forall i :: 0 <= i < Min(span, |data|) ==> Stat(data[i], c).None?
    ensures r.percentBelow.None? <==> r.percentAbove.None?
  {
    CountZero(Window(data, c, span), AnyValue);
    LineCounts(Window(data, c, span), line)
  }

  lemma ThreeShares(a: nat, b: nat, e: nat, t: nat)
    requires 0 < t && a + b + e == t
    ensures Share(a, t) + Share(b, t) + Share(e, t) == 100.0
  {
    ShareSum(a, b, t);
    ShareSum(a + b, e, t);
    assert a + b + e == t;
    ShareWhole(t);
  }

  /** Everything is one hundred percent of itself. */
  lemma ShareWhole(t: nat)
    requires 0 < t
    ensures Share(t, t) == 100.0
  {
    var tr := t as real;
    assert tr / tr == 1.0;
  }

  /** The shares over, under and on the line add up to one hundred. */
  lemma PercentagesComplement(w: seq<Option<int>>, line: real)
    requires Present(w) > 0
    ensures
      var r := LineCounts(w, line);
      r.percentAbove.value + r.percentBelow.value + Share(CountWhere(w, OnLine(line)), Present(w)) == 100.0
  {
    LinePartition(w, line);
    ThreeShares(CountWhere(w, Above(line)), CountWhere(w, Below(line)), CountWhere(w, OnLine(line)), Present(w));
  }

  /** The four lines of the table, each over the selection reversed so that the newest game is first. */
  datatype LineTable = LineTable(overall: LineResult, last3: LineResult, last5: LineResult, last10: LineResult)

  /**
   The four lines of the table: "Overall" counts every game of the selection,
   and the span-n lines count its last n games.
   */
  function BuildLineTable(sel: seq<Row>, c: StatColumn, line: real): (t: LineTable)
    ensures t.overall.above == CountWhere(Column(sel, c), Above(line))
    ensures t.overall.below == CountWhere(Column(sel, c), Below(line))
    ensures t.last3.above == CountWhere(Column(Tail(sel, 3), c), Above(line))
    ensures t.last3.below == CountWhere(Column(Tail(sel, 3), c), Below(line))
    ensures t.last5.above == CountWhere(Column(Tail(sel, 5), c), Above(line))
    ensures t.last5.below == CountWhere(Column(Tail(sel, 5), c), Below(line))
    ensures t.last10.above == CountWhere(Column(Tail(sel, 10), c), Above(line))
    ensures t.last10.below == CountWhere(Column(Tail(sel, 10), c), Below(line))
  {
    LastGamesCounts(sel, c, line, |sel|);
    HeadWhole(sel, |sel|);
    LastGamesCounts(sel, c, line, 3);
    LastGamesCounts(sel, c, line, 5);
    LastGamesCounts(sel, c, line, 10);
    var data := Reverse(sel);
    LineTable(
      CalculatePercentageAndCount(data, c, line, |data|),
      CalculatePercentageAndCount(data, c, line, 3),
      CalculatePercentageAndCount(data, c, line, 5),
      CalculatePercentageAndCount(data, c, line, 10))
  }

  lemma WindowNested(data: seq<Row>, c: StatColumn, m: nat, n: nat)
    requires m <= n
    ensures Window(data, c, m) <= Window(data, c, n)
  {
  }

  /** The count of a span never exceeds that of a longer span. */
  lemma CountsGrowWithSpan(data: seq<Row>, c: StatColumn, line: real, m: nat, n: nat)
    requires m <= n
    ensures CalculatePercentageAndCount(data, c, line, m).above
      <= CalculatePercentageAndCount(data, c, line, n).above
    ensures CalculatePercentageAndCount(data, c, line, m).below
      <= CalculatePercentageAndCount(data, c, line, n).below
  {
    WindowNested(data, c, m, n);
    CountPrefix(Window(data, c, n), Window(data, c, m), Above(line));
    CountPrefix(Window(data, c, n), Window(data, c, m), Below(line));
  }

  /** Last 3 <= last 5 <= last 10 <= overall, for the counts over and under the line. */
  lemma LineTableNested(sel: seq<Row>, c: StatColumn, line: real)
    ensures
      var t := BuildLineTable(sel, c, line);
      t.last3.above <= t.last5.above <= t.last10.above <= t.overall.above
      && t.last3.below <= t.last5.below <= t.last10.below <= t.overall.below
  {
    var data := Reverse(sel);
    CountsGrowWithSpan(data, c, line, 3, 5);
    CountsGrowWithSpan(data, c, line, 5, 10);
    if 10 <= |data| {
      CountsGrowWithSpan(data, c, line, 10, |data|);
    } else {
      HeadWhole(data, 10);
      HeadWhole(data, |data|);
    }
  }

  /** The window of span `n` is the selection's last `n` games, newest first. */
  lemma WindowIsLastGames(sel: seq<Row>, c: StatColumn, n: nat)
    ensures Window(Reverse(sel), c, n) == Reverse(Column(Tail(sel, n), c))
  {
    HeadOfReverse(sel, n);
    ColumnReverse(Tail(sel, n), c);
    assert Window(Reverse(sel), c, n) == Column(Head(Reverse(sel), n), c);
  }

  /** Taking a column commutes with reversing the rows. */
  lemma ColumnReverse(rows: seq<Row>, c: StatColumn)
    ensures Column(Reverse(rows), c) == Reverse(Column(rows, c))
  {
    var a, b := Column(Reverse(rows), c), Reverse(Column(rows, c));
    assert |a| == |rows| == |b|;
    forall i | 0 <= i < |rows|
      ensures a[i] == b[i]
    {
      assert a[i] == Stat(Reverse(rows)[i], c) == Stat(rows[|rows| - 1 - i], c);
      assert b[i] == Column(rows, c)[|rows| - 1 - i];
    }
  }

  /** The counts of span `n` are those of the last `n` games in sheet order. */
  lemma LastGamesCounts(sel: seq<Row>, c: StatColumn, line: real, n: nat)
    ensures CalculatePercentageAndCount(Reverse(sel), c, line, n).above
      == CountWhere(Column(Tail(sel, n), c), Above(line))
    ensures CalculatePercentageAndCount(Reverse(sel), c, line, n).below
      == CountWhere(Column(Tail(sel, n), c), Below(line))
  {
    WindowIsLastGames(sel, c, n);
    CountReverse(Column(Tail(sel, n), c), Above(line));
    CountReverse(Column(Tail(sel, n), c), Below(line));
  }

  /** With no game selected every line of the table counts nothing and has no share. */
  lemma EmptySelectionLines(c: StatColumn, line: real)
    ensures
      var none := LineResult(0, 0, None, None);
      BuildLineTable([], c, line) == LineTable(none, none, none, none)
  {
  }

  function Game(disposals: int): Row
  {
    Row("P", "1", Some(disposals), None, None, None, None, None, None, None)
  }

  /** Disposals 20, 25, 30 against a line of 22: two over (two thirds), one under (one third). */
  lemma ThreeGameExample()
    ensures BuildLineTable([Game(20), Game(25), Game(30)], Disposals, 22.0).last3
      == LineResult(2, 1, Some(200.0 / 3.0), Some(100.0 / 3.0))
  {
    var sel := [Game(20), Game(25), Game(30)];
    var w := Window(Reverse(sel), Disposals, 3);
    ExampleWindow(sel);
    ExampleCounts(w);
    assert Share(2, 3) == 200.0 / 3.0;
    assert Share(1, 3) == 100.0 / 3.0;
  }

  lemma ExampleWindow(sel: seq<Row>)
    requires sel == [Game(20), Game(25), Game(30)]
    ensures Window(Reverse(sel), Disposals, 3) == [Some(30), Some(25), Some(20)]
  {
  }

  lemma ExampleCounts(w: seq<Option<int>>)
    requires w == [Some(30), Some(25), Some(20)]
    ensures CountWhere(w, Above(22.0)) == 2 && CountWhere(w, Below(22.0)) == 1 && Present(w) == 3
  {
    assert w[1..] == [Some(25), Some(20)] && w[2..] == [Some(20)] && w[3..] == [];
    assert CountWhere(w[2..], Above(22.0)) == 0 && CountWhere(w[2..], Below(22.0)) == 1;
    assert CountWhere(w[1..], Above(22.0)) == 1 && CountWhere(w[1..], Below(22.0)) == 1;
    assert CountWhere(w[2..], AnyValue) == 1 && CountWhere(w[1..], AnyValue) == 2;
  }
}

=== FILE: options.dfy ===
/** Missing-value wrapper: a spreadsheet cell that pandas reads as NaN is `None`. */
module Options {

  datatype Option<+T> = None | Some(value: T)
}

=== FILE: rounds.dfy ===
/**
 Normalisation of the `Round` column. The sheet stores rounds as floats; a
 finite value becomes the decimal text of its integer truncation (so `3.0`
 shows as `"3"`), and NaN or an infinity becomes Python's own text for it.
 */
module Rounds {
  import opened Options

  /** A float cell of the Round column. */
  datatype RoundValue = Finite(x: real) | NaN | PosInf | NegInf

  /** Python's `int()` on a float: truncation toward zero. */
  function Truncate(x: real): (n: int)
    ensures 0.0 <= x ==> 0 <= n && n as real <= x < n as real + 1.0
    ensures x < 0.0 ==> n <= 0 && n as real - 1.0 < x <= n as real
  {
    if x >= 0.0 then x.Floor else -((-x).Floor)
  }

  predicate IsDigit(c: char)
  {
    '0' <= c <= '9'
  }

  function DigitChar(d: int): (c: char)
    requires 0 <= d < 10
    ensures IsDigit(c)
  {
    ('0' as int + d) as char
  }

  function DigitValue(c: char): (d: int)
    requires IsDigit(c)
    ensures 0 <= d < 10
  {
    c as int - '0' as int
  }

  /** The decimal digits of `n`, most significant first, without leading zeros. */
  function NatToDigits(n: nat): (s: string)
    ensures 1 <= |s|
    ensures forall i :: 0 <= i < |s| ==> IsDigit(s[i])
    ensures n == 0 <==> s == "0"
    ensures s[0] == '0' ==> n == 0
  {
    if n < 10 then [DigitChar(n)] else NatToDigits(n / 10) + [DigitChar(n % 10)]
  }

  /** The number a string of decimal digits denotes. */
  function DigitsToNat(s: string): nat
    requires forall i :: 0 <= i < |s| ==> IsDigit(s[i])
  {
    if |s| == 0 then 0 else DigitsToNat(s[..|s| - 1]) * 10 + DigitValue(s[|s| - 1])
  }

  lemma {:induction false} DigitsRoundTrip(n: nat)
    ensures DigitsToNat(NatToDigits(n)) == n
  {
    var s := NatToDigits(n);
    if n >= 10 {
      DigitsRoundTrip(n / 10);
      assert s[..|s| - 1] == NatToDigits(n / 10);
    }
  }

  /** Python's `str()` on an integer. */
  function IntToString(i: int): (s: string)
    ensures 1 <= |s|
    ensures s[0] == '-' <==> i < 0
    ensures forall k :: (if i < 0 then 1 else 0) <= k < |s| ==> IsDigit(s[k])
  {
    if i < 0 then "-" + NatToDigits(-i) else NatToDigits(i)
  }

  predicate AllDigits(s: string)
  {
    forall i :: 0 <= i < |s| ==> IsDigit(s[i])
  }

  /** Reads back an optionally signed decimal integer; `None` for any other text. */
  function ParseInt(s: string): Option<int>
  {
    if 2 <= |s| && s[0] == '-' && AllDigits(s[1..]) then
      var magnitude: int := DigitsToNat(s[1..]);
      Some(-magnitude)
    else if 1 <= |s| && AllDigits(s) then Some(DigitsToNat(s))
    else None
  }

  lemma IntRoundTrip(i: int)
    ensures ParseInt(IntToString(i)) == Some(i)
  {
    var s := IntToString(i);
    if i < 0 {
      var digits := NatToDigits(-i);
      assert s == "-" + digits;
      assert s[1..] == digits;
      assert AllDigits(digits);
      DigitsRoundTrip(-i);
      assert DigitsToNat(s[1..]) == -i;
    } else {
      assert s == NatToDigits(i);
      assert IsDigit(s[0]);
      assert AllDigits(s);
      DigitsRoundTrip(i);
    }
  }

  /** The Round normalisation: total, never failing. */
  function NormalizeRound(v: RoundValue): (s: string)
    ensures 1 <= |s|
    ensures v.Finite? ==> ParseInt(s) == Some(Truncate(v.x))
    ensures v.Finite? ==> forall k :: 0 <= k < |s| ==> s[k] != '.'
    ensures !v.Finite? ==> ParseInt(s) == None
  {
    match v
    case Finite(x) =>
      IntRoundTrip(Truncate(x));
      IntToString(Truncate(x))
    case NaN => "nan"
    case PosInf => "inf"
    case NegInf => "-inf"
  }

  /** Python's `float()` on the strings the normalisation produces; `None` where it would raise. */
  function ReadRound(s: string): Option<RoundValue>
  {
    if s == "nan" then Some(NaN)
    else if s == "inf" then Some(PosInf)
    else if s == "-inf" then Some(NegInf)
    else match ParseInt(s)
      case Some(i) => Some(Finite(i as real))
      case None => None
  }

  /** Normalising, reading the text back and normalising again changes nothing. */
  lemma NormalizeIdempotent(v: RoundValue)
    ensures ReadRound(NormalizeRound(v)).Some?
    ensures NormalizeRound(ReadRound(NormalizeRound(v)).value) == NormalizeRound(v)
  {
    if v.Finite? {
      var n := Truncate(v.x);
      var s := NormalizeRound(v);
      assert s[0] != 'n' && s[0] != 'i';
      assert ReadRound(s) == Some(Finite(n as real));
      assert Truncate(n as real) == n;
    }
  }

  /** `apply` of the normalisation over the whole column, cell by cell. */
  function NormalizeColumn(vs: seq<RoundValue>): (ss: seq<string>)
    ensures |ss| == |vs|
    ensures forall i :: 0 <= i < |vs| ==> ss[i] == NormalizeRound(vs[i])
  {
    seq(|vs|, i requires 0 <= i < |vs| => NormalizeRound(vs[i]))
  }

  /** Rounds `3.0`, `4.0` and NaN read as `"3"`, `"4"` and `"nan"`. */
  lemma NormalizeExample()
    ensures NormalizeColumn([Finite(3.0), Finite(4.0), NaN]) == ["3", "4", "nan"]
  {
  }
}

=== FILE: selection.dfy ===
/** The player multiselect query: keep the rows of the chosen players. */
module Selection {
  import opened Dataset

  /** `df.query("Player == @player")`: the rows whose player is chosen, in sheet order. */
  function Select(rows: seq<Row>, chosen: set<string>): (r: seq<Row>)
    ensures |r| <= |rows|
    ensures forall i :: 0 <= i < |r| ==> r[i].player in chosen
  {
    if |rows| == 0 then []
    else (if rows[0].player in chosen then [rows[0]] else []) + Select(rows[1..], chosen)
  }

  /** The selection holds each row of a chosen player as often as the sheet does, and no other row. */
  lemma {:induction false} SelectContents(rows: seq<Row>, chosen: set<string>, x: Row)
    ensures multiset(Select(rows, chosen))[x] == if x.player in chosen then multiset(rows)[x] else 0
  {
    if |rows| > 0 {
      SelectContents(rows[1..], chosen, x);
      assert rows == [rows[0]] + rows[1..];
    }
  }

  /** Every selected row belongs to a chosen player, and every such row of the sheet is selected. */
  lemma SelectMembership(rows: seq<Row>, chosen: set<string>, x: Row)
    ensures x in Select(rows, chosen) <==> x in rows && x.player in chosen
  {
    SelectContents(rows, chosen, x);
    assert x in Select(rows, chosen) <==> multiset(Select(rows, chosen))[x] > 0;
    assert x in rows <==> multiset(rows)[x] > 0;
  }

  /** Selection distributes over concatenation, so it keeps the relative order of the rows. */
  lemma {:induction false} SelectAppend(a: seq<Row>, b: seq<Row>, chosen: set<string>)
    ensures Select(a + b, chosen) == Select(a, chosen) + Select(b, chosen)
  {
    if |a| == 0 {
      assert a + b == b;
    } else {
      assert (a + b)[1..] == a[1..] + b;
      SelectAppend(a[1..], b, chosen);
    }
  }

  /** An empty choice selects nothing. */
  lemma {:induction false} SelectNothing(rows: seq<Row>)
    ensures Select(rows, {}) == []
  {
    if |rows| > 0 {
      SelectNothing(rows[1..]);
    }
  }

  /** Choosing every player of the sheet keeps the sheet as it is. */
  lemma {:induction false} SelectEveryone(rows: seq<Row>, chosen: set<string>)
    requires forall i :: 0 <= i < |rows| ==> rows[i].player in chosen
    ensures Select(rows, chosen) == rows
  {
    if |rows| > 0 {
      SelectEveryone(rows[1..], chosen);
    }
  }

  /** Selecting twice with two choices is selecting once with their intersection. */
  lemma {:induction false} SelectTwice(rows: seq<Row>, c1: set<string>, c2: set<string>)
    ensures Select(Select(rows, c1), c2) == Select(rows, c1 * c2)
  {
    if |rows| > 0 {
      var head := if rows[0].player in c1 then [rows[0]] else [];
      SelectAppend(head, Select(rows[1..], c1), c2);
      SelectTwice(rows[1..], c1, c2);
    }
  }
}

=== FILE: splits.dfy ===
/**
 The split tables: per-category means of a statistic (`groupby(col)[stat].mean()`)
 over home/away, venue and win/lose/draw, read back with `.get(key, 0)`.
 pandas drops rows whose category is NaN from every group.
 */
module Splits {
  import opened Options
  import opened Dataset
  import opened Aggregates

  predicate Distinct<T(==)>(s: seq<T>)
  {
    forall i, j :: 0 <= i < j < |s| ==> s[i] != s[j]
  }

  /** The rows whose category `g` is `k`, in order. */
  function Group(rows: seq<Row>, g: GroupColumn, k: string): (r: seq<Row>)
    ensures |r| <= |rows|
    ensures forall i :: 0 <= i < |r| ==> Key(r[i], g) == Some(k)
  {
    if |rows| == 0 then []
    else (if Key(rows[0], g) == Some(k) then [rows[0]] else []) + Group(rows[1..], g, k)
  }

  /** The rows that have a category `g` at all. */
  function Keyed(rows: seq<Row>, g: GroupColumn): (r: seq<Row>)
    ensures |r| <= |rows|
    ensures forall i :: 0 <= i < |r| ==> Key(r[i], g).Some?
  {
    if |rows| == 0 then []
    else (if Key(rows[0], g).Some? then [rows[0]] else []) + Keyed(rows[1..], g)
  }

  /** The category values that occur in `rows`. */
  function Categories(rows: seq<Row>, g: GroupColumn): set<string>
  {
    set i | 0 <= i < |rows| && Key(rows[i], g).Some? :: Key(rows[i], g).value
  }

  /** `groupby(g)[stat].mean()`: one entry per category present, the mean over that category's rows. */
  function GroupedMean(rows: seq<Row>, stat: StatColumn, g: GroupColumn): (m: map<string, Option<real>>)
    ensures m.Keys == Categories(rows, g)
  {
    map k | k in Categories(rows, g) :: Mean(Column(Group(rows, g, k), stat))
  }

  /** The keys of a grouped mean are exactly the categories that occur in the rows. */
  lemma GroupedMeanKeys(rows: seq<Row>, stat: StatColumn, g: GroupColumn, k: string)
    ensures k in GroupedMean(rows, stat, g) <==> exists i :: 0 <= i < |rows| && Key(rows[i], g) == Some(k)
  {
    if exists i :: 0 <= i < |rows| && Key(rows[i], g) == Some(k) {
      var i :| 0 <= i < |rows| && Key(rows[i], g) == Some(k);
      assert Key(rows[i], g).value == k;
    }
  }

  /** `.get(k, 0)` on a grouped mean; a NaN key is never in the index. */
  function Lookup(m: map<string, Option<real>>, k: Option<string>): (r: Option<real>)
    ensures k.Some? && k.value in m ==> r == m[k.value]
    ensures r != Some(0.0) ==> k.Some? && k.value in m
  {
    if k.Some? && k.value in m then m[k.value] else Some(0.0)
  }

  /** A category looked up in its grouped mean is the mean over its rows, or 0 when no row has it. */
  lemma LookupMeaning(rows: seq<Row>, stat: StatColumn, g: GroupColumn, k: string)
    ensures Lookup(GroupedMean(rows, stat, g), Some(k)) ==
      if exists i :: 0 <= i < |rows| && Key(rows[i], g) == Some(k)
      then Mean(Column(Group(rows, g, k), stat))
      else Some(0.0)
  {
  }

  /** A present category whose mean is `None` has no value of the statistic in any of its rows. */
  lemma GroupedMeanMissing(rows: seq<Row>, stat: StatColumn, g: GroupColumn, k: string)
    ensures k in GroupedMean(rows, stat, g) ==>
      (GroupedMean(rows, stat, g)[k].None? <==>
        forall i :: 0 <= i < |rows| && Key(rows[i], g) == Some(k) ==> Stat(rows[i], stat).None?)
  {
    GroupMembers(rows, g, k);
  }

  /** A row is in the group of `k` exactly when its category is `k`. */
  lemma {:induction false} GroupMembers(rows: seq<Row>, g: GroupColumn, k: string)
    ensures forall x :: x in Group(rows, g, k) <==> x in rows && Key(x, g) == Some(k)
  {
    if |rows| > 0 {
      GroupMembers(rows[1..], g, k);
      assert rows == [rows[0]] + rows[1..];
    }
  }

  // ---- the partition of a statistic over the categories ----

  /** The two reductions a grouped mean is made of: `count()` and `sum()`. */
  datatype Reduction = Count | Total

  /** `count()` or `sum()` of the present values. */
  function Measure(vs: seq<Option<int>>, how: Reduction): int
  {
    match how
    case Count => Present(vs)
    case Total => Sum(vs)
  }

  /** What one row adds to a `Measure`. */
  function Weight(r: Row, stat: StatColumn, how: Reduction): int
  {
    match Stat(r, stat)
    case None => 0
    case Some(v) => if how == Count then 1 else v
  }

  lemma MeasureSingle(r: Row, stat: StatColumn, how: Reduction)
    ensures Measure(Column([r], stat), how) == Weight(r, stat, how)
  {
    var vs := Column([r], stat);
    assert vs == [Stat(r, stat)];
    assert vs[1..] == [];
    assert Present(vs) == (if Stat(r, stat).Some? then 1 else 0) + Present([]);
    assert Sum(vs) == (if Stat(r, stat).Some? then Stat(r, stat).value else 0) + Sum([]);
  }

  lemma MeasureSplit(a: seq<Row>, b: seq<Row>, stat: StatColumn, how: Reduction)
    ensures Measure(Column(a + b, stat), how) == Measure(Column(a, stat), how) + Measure(Column(b, stat), how)
  {
    ColumnAppend(a, b, stat);
    CountAppend(Column(a, stat), Column(b, stat), AnyValue);
    SumAppend(Column(a, stat), Column(b, stat));
  }

  /** Measure of the group of `k`. */
  function GroupMeasure(rows: seq<Row>, stat: StatColumn, g: GroupColumn, k: string, how: Reduction): int
  {
    Measure(Column(Group(rows, g, k), stat), how)
  }

  /** Measures of the groups of `ks`, added up. */
  function Across(rows: seq<Row>, stat: StatColumn, g: GroupColumn, ks: seq<string>, how: Reduction): int
  {
    if |ks| == 0 then 0 else GroupMeasure(rows, stat, g, ks[0], how) + Across(rows, stat, g, ks[1..], how)
  }

  /** What one row adds to `Across`. */
  function Spread(r: Row, stat: StatColumn, g: GroupColumn, ks: seq<string>, how: Reduction): int
  {
    if |ks| == 0 then 0
    else (if Key(r, g) == Some(ks[0]) then Weight(r, stat, how) else 0) + Spread(r, stat, g, ks[1..], how)
  }

  lemma GroupStep(rows: seq<Row>, stat: StatColumn, g: GroupColumn, k: string, how: Reduction)
    requires |rows| > 0
    ensures GroupMeasure(rows, stat, g, k, how)
      == (if Key(rows[0], g) == Some(k) then Weight(rows[0], stat, how) else 0)
         + GroupMeasure(rows[1..], stat, g, k, how)
  {
    var h := if Key(rows[0], g) == Some(k) then [rows[0]] else [];
    assert Group(rows, g, k) == h + Group(rows[1..], g, k);
    MeasureSplit(h, Group(rows[1..], g, k), stat, how);
    if h != [] {
      MeasureSingle(rows[0], stat, how);
    } else {
      assert Column(h, stat) == [];
    }
  }

  lemma {:induction false} AcrossStep(rows: seq<Row>, stat: StatColumn, g: GroupColumn, ks: seq<string>, how: Reduction)
    requires |rows| > 0
    ensures Across(rows, stat, g, ks, how)
      == Spread(rows[0], stat, g, ks, how) + Across(rows[1..], stat, g, ks, how)
  {
    if |ks| > 0 {
      GroupStep(rows, stat, g, ks[0], how);
      AcrossStep(rows, stat, g, ks[1..], how);
    }
  }

  lemma {:induction false} SpreadDistinct(r: Row, stat: StatColumn, g: GroupColumn, ks: seq<string>, how: Reduction)
    requires Distinct(ks)
    ensures Spread(r, stat, g, ks, how)
      == if Key(r, g).Some? && Key(r, g).value in ks then Weight(r, stat, how) else 0
  {
    if |ks| > 0 {
      SpreadDistinct(r, stat, g, ks[1..], how);
      if Key(r, g) == Some(ks[0]) {
        assert ks[0] !in ks[1..];
      }
    }
  }

  lemma KeyedStep(rows: seq<Row>, stat: StatColumn, g: GroupColumn, how: Reduction)
    requires |rows| > 0
    ensures Measure(Column(Keyed(rows, g), stat), how)
      == (if Key(rows[0], g).Some? then Weight(rows[0], stat, how) else 0)
         + Measure(Column(Keyed(rows[1..], g), stat), how)
  {
    var h := if Key(rows[0], g).Some? then [rows[0]] else [];
    assert Keyed(rows, g) == h + Keyed(rows[1..], g);
    MeasureSplit(h, Keyed(rows[1..], g), stat, how);
    if h != [] {
      MeasureSingle(rows[0], stat, how);
    } else {
      assert Column(h, stat) == [];
    }
  }

  /** Adding up the groups of a list that names every category once gives the measure over every keyed row. */
  lemma {:induction false} AcrossPartition(rows: seq<Row>, stat: StatColumn, g: GroupColumn, ks: seq<string>, how: Reduction)
    requires Distinct(ks)
    requires forall i :: 0 <= i < |rows| && Key(rows[i], g).Some? ==> Key(rows[i], g).value in ks
    ensures Across(rows, stat, g, ks, how) == Measure(Column(Keyed(rows, g), stat), how)
  {
    if |rows| == 0 {
      AcrossEmpty(stat, g, ks, how);
    } else {
      AcrossStep(rows, stat, g, ks, how);
      SpreadDistinct(rows[0], stat, g, ks, how);
      KeyedStep(rows, stat, g, how);
      AcrossPartition(rows[1..], stat, g, ks, how);
    }
  }

  lemma {:induction false} AcrossEmpty(stat: StatColumn, g: GroupColumn, ks: seq<string>, how: Reduction)
    ensures Across([], stat, g, ks, how) == 0
  {
    if |ks| > 0 {
      AcrossEmpty(stat, g, ks[1..], how);
    }
  }

  /** The group means of `ks` weighted by their group counts, added up. */
  function WeightedMeans(rows: seq<Row>, stat: StatColumn, g: GroupColumn, ks: seq<string>): real
  {
    if |ks| == 0 then 0.0
    else MeanTimesCount(Column(Group(rows, g, ks[0]), stat)) + WeightedMeans(rows, stat, g, ks[1..])
  }

  /** The column `stat` with every row outside category `k` blanked to NaN: the formulation `GroupedMeanEntry` states an entry by. */
  function Masked(rows: seq<Row>, stat: StatColumn, g: GroupColumn, k: string): (vs: seq<Option<int>>)
    ensures |vs| == |rows|
  {
    seq(|rows|, i requires 0 <= i < |rows| => if Key(rows[i], g) == Some(k) then Stat(rows[i], stat) else None)
  }

  /** Blanking the other categories measures the same as picking out the group. */
  lemma {:induction false} MaskedMeasure(rows: seq<Row>, stat: StatColumn, g: GroupColumn, k: string, how: Reduction)
    ensures Measure(Masked(rows, stat, g, k), how) == GroupMeasure(rows, stat, g, k, how)
  {
    var m := Masked(rows, stat, g, k);
    if |rows| == 0 {
      assert m == [];
    } else {
      var rest := Masked(rows[1..], stat, g, k);
      assert m == [m[0]] + rest;
      CountAppend([m[0]], rest, AnyValue);
      SumAppend([m[0]], rest);
      assert [m[0]][1..] == [];
      if Key(rows[0], g) == Some(k) {
        assert [m[0]] == Column([rows[0]], stat);
        MeasureSingle(rows[0], stat, how);
      } else {
        assert m[0] == None;
        assert Measure([m[0]], how) == 0;
      }
      GroupStep(rows, stat, g, k, how);
      MaskedMeasure(rows[1..], stat, g, k, how);
    }
  }

  /**
   An entry of the grouped mean is the NaN-skipping mean of the statistic over
   the rows of its category, every other row counted as missing.
   */
  lemma GroupedMeanEntry(rows: seq<Row>, stat: StatColumn, g: GroupColumn, k: string)
    ensures k in GroupedMean(rows, stat, g) ==>
      GroupedMean(rows, stat, g)[k]
        == Mean(seq(|rows|, i requires 0 <= i < |rows| => if Key(rows[i], g) == Some(k) then Stat(rows[i], stat) else None))
  {
    var m := Masked(rows, stat, g, k);
    var col := Column(Group(rows, g, k), stat);
    MaskedMeasure(rows, stat, g, k, Count);
    MaskedMeasure(rows, stat, g, k, Total);
    assert Present(m) == Present(col) && Sum(m) == Sum(col);
  }

  lemma {:induction false} WeightedMeansAreSums(rows: seq<Row>, stat: StatColumn, g: GroupColumn, ks: seq<string>)
    ensures WeightedMeans(rows, stat, g, ks) == Across(rows, stat, g, ks, Total) as real
  {
    if |ks| > 0 {
      WeightedMeansAreSums(rows, stat, g, ks[1..]);
      MeanTimesCountIsSum(Column(Group(rows, g, ks[0]), stat));
    }
  }

  /**
   The grouped means partition the overall mean: with `ks` naming each category
   once, the group means weighted by their counts add up to the overall sum, the
   counts add up to the overall count, and so their ratio is the mean over every
   row that has a category.
   */
  lemma GroupedMeanPartition(rows: seq<Row>, stat: StatColumn, g: GroupColumn, ks: seq<string>)
    requires Distinct(ks)
    requires forall i :: 0 <= i < |rows| && Key(rows[i], g).Some? ==> Key(rows[i], g).value in ks
    ensures Across(rows, stat, g, ks, Count) == Present(Column(Keyed(rows, g), stat))
    ensures WeightedMeans(rows, stat, g, ks) == Sum(Column(Keyed(rows, g), stat)) as real
    ensures Mean(Column(Keyed(rows, g), stat)).Some? ==>
      Mean(Column(Keyed(rows, g), stat)).value
        == WeightedMeans(rows, stat, g, ks) / Across(rows, stat, g, ks, Count) as real
  {
    AcrossPartition(rows, stat, g, ks, Count);
    AcrossPartition(rows, stat, g, ks, Total);
    WeightedMeansAreSums(rows, stat, g, ks);
  }

  // ---- the tables ----

  /** `unique()`: the distinct values in order of first appearance. */
  function Unique(xs: seq<Option<string>>): (u: seq<Option<string>>)
    ensures Distinct(u)
    ensures forall x :: x in u <==> x in xs
  {
    if |xs| == 0 then []
    else
      var u := Unique(xs[..|xs| - 1]);
      assert xs == xs[..|xs| - 1] + [xs[|xs| - 1]];
      if xs[|xs| - 1] in u then u else u + [xs[|xs| - 1]]
  }

  /** Values keep the order of their first appearance: the distinct values of a prefix are a prefix. */
  lemma {:induction false} UniqueOfPrefix(xs: seq<Option<string>>, n: nat)
    requires n <= |xs|
    ensures Unique(xs[..n]) <= Unique(xs)
    decreases |xs| - n
  {
    if n < |xs| {
      var ys := xs[..|xs| - 1];
      assert xs[..n] == ys[..n];
      UniqueOfPrefix(ys, n);
    } else {
      assert xs[..n] == xs;
    }
  }

  /** A row of the venue table. */
  datatype VenueLine = VenueLine(venue: Option<string>, disposals: Option<real>, goals: Option<real>, fantasy: Option<real>)

  /** The venue table: one line per distinct venue cell of the selection (NaN included), in order of appearance. */
  function VenueTable(sel: seq<Row>): (t: seq<VenueLine>)
    ensures |t| == |Unique(KeyColumn(sel, Venue))|
    ensures Distinct(t)
    ensures forall v :: (exists i :: 0 <= i < |t| && t[i].venue == v) <==> v in KeyColumn(sel, Venue)
    ensures forall i :: 0 <= i < |t| ==> t[i].venue == Unique(KeyColumn(sel, Venue))[i]
  {
    var vs := Unique(KeyColumn(sel, Venue));
    var d, gl, f := GroupedMean(sel, Disposals, Venue), GroupedMean(sel, Goals, Venue), GroupedMean(sel, Fantasy, Venue);
    var t := seq(|vs|, i requires 0 <= i < |vs| => VenueLine(vs[i], Lookup(d, vs[i]), Lookup(gl, vs[i]), Lookup(f, vs[i])));
    assert forall i :: 0 <= i < |t| ==> t[i].venue == vs[i];
    assert forall v :: v in vs ==> exists i :: 0 <= i < |t| && t[i].venue == v;
    t
  }

  /** A venue listed in the table shows its own means; only the line for a blank venue shows the 0 default. */
  lemma VenueTableEntries(sel: seq<Row>, i: nat)
    requires i < |VenueTable(sel)|
    ensures
      var line := VenueTable(sel)[i];
      match line.venue
      case Some(v) =>
        && line.disposals == Mean(Column(Group(sel, Venue, v), Disposals))
        && line.goals == Mean(Column(Group(sel, Venue, v), Goals))
        && line.fantasy == Mean(Column(Group(sel, Venue, v), Fantasy))
      case None => line.disposals == line.goals == line.fantasy == Some(0.0)
  {
    var vs := Unique(KeyColumn(sel, Venue));
    assert vs[i] in KeyColumn(sel, Venue);
  }

  /** The lines of the home/away and win/loss table. */
  datatype SplitCategory = HomeGames | AwayGames | Wins | Losses

  /** The category column and value each line reads; the loss line reads the category "Lose". */
  function SplitKey(cat: SplitCategory): (GroupColumn, string)
  {
    match cat
    case HomeGames => (HomeAway, "Home")
    case AwayGames => (HomeAway, "Away")
    case Wins => (WinLoseDraw, "Win")
    case Losses => (WinLoseDraw, "Lose")
  }

  datatype CategoryLine = CategoryLine(category: SplitCategory, disposals: Option<real>, goals: Option<real>, fantasy: Option<real>)

  function CategoryOf(sel: seq<Row>, cat: SplitCategory): (line: CategoryLine)
    ensures line.category == cat
  {
    var (g, k) := SplitKey(cat);
    CategoryLine(cat,
      Lookup(GroupedMean(sel, Disposals, g), Some(k)),
      Lookup(GroupedMean(sel, Goals, g), Some(k)),
      Lookup(GroupedMean(sel, Fantasy, g), Some(k)))
  }

  /** The order of the split table's lines. */
  const SplitOrder: seq<SplitCategory> := [HomeGames, AwayGames, Wins, Losses]

  /** The split table: Home, Away, Win and Loss lines in that order; draws are not shown. */
  function CombinedTable(sel: seq<Row>): (t: seq<CategoryLine>)
    ensures |t| == |SplitOrder| == 4
    ensures forall i :: 0 <= i < 4 ==> t[i].category == SplitOrder[i]
  {
    seq(4, i requires 0 <= i < 4 => CategoryOf(sel, SplitOrder[i]))
  }

  /** Each cell of a category line is the category's mean, or 0 when no selected game has the category. */
  lemma CategoryLineMeaning(sel: seq<Row>, cat: SplitCategory)
    ensures
      var (g, k) := SplitKey(cat);
      var line := CategoryOf(sel, cat);
      if exists i :: 0 <= i < |sel| && Key(sel[i], g) == Some(k) then
        && line.disposals == Mean(Column(Group(sel, g, k), Disposals))
        && line.goals == Mean(Column(Group(sel, g, k), Goals))
        && line.fantasy == Mean(Column(Group(sel, g, k), Fantasy))
      else line.disposals == line.goals == line.fantasy == Some(0.0)
  {
    var (g, k) := SplitKey(cat);
    LookupMeaning(sel, Disposals, g, k);
    LookupMeaning(sel, Goals, g, k);
    LookupMeaning(sel, Fantasy, g, k);
  }

  /** With no game selected the split table shows 0 everywhere and the venue table is empty. */
  lemma EmptySelectionSplits()
    ensures forall i :: 0 <= i < 4 ==>
      CombinedTable([])[i].disposals == CombinedTable([])[i].goals == CombinedTable([])[i].fantasy == Some(0.0)
    ensures VenueTable([]) == []
  {
    CategoryLineMeaning([], HomeGames);
    CategoryLineMeaning([], AwayGames);
    CategoryLineMeaning([], Wins);
    CategoryLineMeaning([], Losses);
  }

  /** A game of the examples: only its home/away cell and its goals are filled. */
  function HomeAwayGame(homeAway: string, goals: int): Row
  {
    Row("P", "1", None, None, None, Some(goals), None, Some(homeAway), None, None)
  }

  /** Goals 2 and 4 at home and 1 away average 3 at home and 1 away. */
  lemma HomeAwayExample()
    ensures
      var m := GroupedMean([HomeAwayGame("Home", 2), HomeAwayGame("Home", 4), HomeAwayGame("Away", 1)], Goals, HomeAway);
      m.Keys == {"Home", "Away"} && m["Home"] == Some(3.0) && m["Away"] == Some(1.0)
  {
    var rows := [HomeAwayGame("Home", 2), HomeAwayGame("Home", 4), HomeAwayGame("Away", 1)];
    assert Key(rows[0], HomeAway).value == "Home";
    assert Key(rows[2], HomeAway).value == "Away";
    assert Categories(rows, HomeAway) == {"Home", "Away"};
    var home := Column(Group(rows, HomeAway, "Home"), Goals);
    var away := Column(Group(rows, HomeAway, "Away"), Goals);
    GroupExample(rows);
    MeanExample(home, away);
    GroupedMeanEntry(rows, Goals, HomeAway, "Home");
    GroupedMeanEntry(rows, Goals, HomeAway, "Away");
  }

  lemma GroupExample(rows: seq<Row>)
    requires rows == [HomeAwayGame("Home", 2), HomeAwayGame("Home", 4), HomeAwayGame("Away", 1)]
    ensures Column(Group(rows, HomeAway, "Home"), Goals) == [Some(2), Some(4)]
    ensures Column(Group(rows, HomeAway, "Away"), Goals) == [Some(1)]
  {
    assert rows[1..] == [HomeAwayGame("Home", 4), HomeAwayGame("Away", 1)] && rows[2..] == [HomeAwayGame("Away", 1)] && rows[3..] == [];
    assert Group(rows[2..], HomeAway, "Home") == [] && Group(rows[2..], HomeAway, "Away") == [rows[2]];
    assert Group(rows[1..], HomeAway, "Home") == [rows[1]] && Group(rows[1..], HomeAway, "Away") == [rows[2]];
    assert Group(rows, HomeAway, "Home") == [rows[0], rows[1]] && Group(rows, HomeAway, "Away") == [rows[2]];
  }

  lemma MeanExample(home: seq<Option<int>>, away: seq<Option<int>>)
    requires home == [Some(2), Some(4)] && away == [Some(1)]
    ensures Mean(home) == Some(3.0) && Mean(away) == Some(1.0)
  {
    assert home[1..] == [Some(4)] && home[2..] == [] && away[1..] == [];
    assert Present(home[1..]) == 1 && Sum(home[1..]) == 4;
    assert Present(home) == 2 && Sum(home) == 6;
    assert Present(away) == 1 && Sum(away) == 1;
  }
}

=== FILE: summary.dfy ===
/** The breakdown table: season mean and last-3/5/10-game means of three statistics. */
module Summary {
  import opened Options
  import opened Dataset
  import opened Windows
  import opened Aggregates

  /** `df[c].tail(n).mean()`: the mean over the last `n` games. */
  function TailMean(sel: seq<Row>, c: StatColumn, n: nat): (m: Option<real>)
    ensures m.None? <==> forall i :: |sel| - Min(n, |sel|) <= i < |sel| ==> Stat(sel[i], c).None?
  {
    Mean(Tail(Column(sel, c), n))
  }

  /** `df[c].mean()`: the mean over the whole selection. */
  function SeasonMean(sel: seq<Row>, c: StatColumn): (m: Option<real>)
    ensures m.None? <==> forall i :: 0 <= i < |sel| ==> Stat(sel[i], c).None?
  {
    Mean(Column(sel, c))
  }

  /** A span that reaches back past the first game is the whole-season mean. */
  lemma TailMeanWholeSeason(sel: seq<Row>, c: StatColumn, n: nat)
    requires |sel| <= n
    ensures TailMean(sel, c, n) == SeasonMean(sel, c)
  {
    HeadWhole(Column(sel, c), n);
  }

  /** A tail mean lies between the smallest and the largest value in its window. */
  lemma TailMeanBounds(sel: seq<Row>, c: StatColumn, n: nat, lo: int, hi: int)
    requires forall i :: 0 <= i < |sel| && Stat(sel[i], c).Some? ==> lo <= Stat(sel[i], c).value <= hi
    ensures TailMean(sel, c, n).Some? ==> lo as real <= TailMean(sel, c, n).value <= hi as real
  {
    MeanBounds(Tail(Column(sel, c), n), lo, hi);
  }

  /** A tail mean averages only the games of its window that have the statistic. */
  lemma TailMeanSkipsMissing(sel: seq<Row>, c: StatColumn, n: nat)
    ensures TailMean(sel, c, n) == Mean(Compact(Tail(Column(sel, c), n)))
  {
    var w := Tail(Column(sel, c), n);
    MeanSkipsMissing(w);
  }

  /** One line of the breakdown table. */
  datatype StatLine = StatLine(stat: StatColumn, average: Option<real>,
                               last3: Option<real>, last5: Option<real>, last10: Option<real>)

  /** The breakdown line of one statistic. */
  function Breakdown(sel: seq<Row>, c: StatColumn): (line: StatLine)
    ensures line.stat == c
    ensures line.average.None? <==> forall i :: 0 <= i < |sel| ==> Stat(sel[i], c).None?
  {
    StatLine(c, SeasonMean(sel, c), TailMean(sel, c, 3), TailMean(sel, c, 5), TailMean(sel, c, 10))
  }

  /** The statistics of the breakdown table, in display order. */
  const BreakdownOrder: seq<StatColumn> := [Disposals, Fantasy, Goals]

  /** The breakdown table: disposals, fantasy and goals, in that order. */
  function BreakdownTable(sel: seq<Row>): (t: seq<StatLine>)
    ensures |t| == |BreakdownOrder| == 3
    ensures forall i :: 0 <= i < 3 ==> t[i].stat == BreakdownOrder[i]
  {
    seq(3, i requires 0 <= i < 3 => Breakdown(sel, BreakdownOrder[i]))
  }

  /** With at most three games selected, every column of a breakdown line is the season mean. */
  lemma ShortSelectionCollapses(sel: seq<Row>, c: StatColumn)
    requires |sel| <= 3
    ensures Breakdown(sel, c).last3 == Breakdown(sel, c).average
    ensures Breakdown(sel, c).last5 == Breakdown(sel, c).average
    ensures Breakdown(sel, c).last10 == Breakdown(sel, c).average
  {
    TailMeanWholeSeason(sel, c, 3);
    TailMeanWholeSeason(sel, c, 5);
    TailMeanWholeSeason(sel, c, 10);
  }

  /** An empty selection leaves every cell of the table without a value. */
  lemma EmptySelectionBreakdown()
    ensures forall i :: 0 <= i < 3 ==> BreakdownTable([])[i] == StatLine(BreakdownOrder[i], None, None, None, None)
  {
    var t := BreakdownTable([]);
    forall i | 0 <= i < 3
      ensures t[i] == StatLine(BreakdownOrder[i], None, None, None, None)
    {
      assert t[i] == Breakdown([], BreakdownOrder[i]);
    }
  }
}

=== FILE: windows.dfy ===
/**
 The three sequence views the dashboard takes of a selection: `iloc[::-1]`
 (newest game first), `head(n)` and `tail(n)`. Spans are never negative here.
 */
module Windows {

  function Min(a: int, b: int): int
  {
    if a <= b then a else b
  }

  /** `iloc[::-1]`: the same rows, last first. */
  function Reverse<T>(s: seq<T>): (r: seq<T>)
    ensures |r| == |s|
    ensures forall i :: 0 <= i < |s| ==> r[i] == s[|s| - 1 - i]
  {
    if |s| == 0 then [] else Reverse(s[1..]) + [s[0]]
  }

  /** `head(n)`: the first `n` rows, or all of them when there are fewer. */
  function Head<T>(s: seq<T>, n: nat): (w: seq<T>)
    ensures |w| == Min(n, |s|) <= n
    ensures w <= s
  {
    s[..Min(n, |s|)]
  }

  /** `tail(n)`: the last `n` rows, or all of them when there are fewer. */
  function Tail<T>(s: seq<T>, n: nat): (w: seq<T>)
    ensures |w| == Min(n, |s|) <= n
    ensures forall i :: 0 <= i < |w| ==> w[i] == s[|s| - |w| + i]
  {
    s[|s| - Min(n, |s|)..]
  }

  /** The first `n` rows of the newest-first order are the last `n` games, newest first. */
  lemma HeadOfReverse<T>(s: seq<T>, n: nat)
    ensures Head(Reverse(s), n) == Reverse(Tail(s, n))
  {
  }

  /** A span at least as long as the sequence takes all of it. */
  lemma HeadWhole<T>(s: seq<T>, n: nat)
    requires |s| <= n
    ensures Head(s, n) == s
    ensures Tail(s, n) == s
  {
  }

  /** Windows of growing span are nested prefixes. */
  lemma HeadNested<T>(s: seq<T>, m: nat, n: nat)
    requires m <= n
    ensures Head(s, m) <= Head(s, n)
    ensures Head(s, m) == Head(Head(s, n), m)
  {
  }
}
